=== FILE: README.md ===
# OracleManager connection cache, modelled in Dafny

Sqoop's `OracleManager` keeps one process-wide `ConnCache`. It holds at most
one idle JDBC connection per `(connect string, username)` pair, because
Oracle XE releases server-side resources slowly when a connection is closed.
`getConnection` removes and health-checks a cached connection before handing
it out. `recycle` stores a released connection, or closes it when the slot is
already taken (the first releaser wins). `finalize` closes whatever is still
cached.

The model is a functional state machine:

- `wrappers.dfy`: `Option` (a Java reference that may be null) and `Result`.
- `cache_key.dfy` (module `CacheKeys`): `CacheKey` with `Option<string>` for
  the username. It holds Java's `String.hashCode` in 32-bit arithmetic (`bv32`)
  and `CacheKey.hashCode`. It has `equals` twice: as written (it can raise
  `NullPointerException`) and as evidently intended. It also has `Probe`, the
  bucket scan `java.util.HashMap.get` runs with these two methods.
- `jdbc.dfy` (module `Jdbc`): a connection is an identity (`ConnId`) with
  `closed` and `readOnly` flags. Every call the cache makes on one is an
  `Invocation`. A `faults` set says which invocations raise `SQLException`.
  `Issued` runs a script of calls until the first one that raises.
- `conn_cache.dfy` (module `ConnCache`): `State` holds the cache map, the
  flags of every connection and the trace of invocations. It defines pure
  transitions `GetConnection`, `Recycle`, `Finalize` and `ManagerClose`
  (`OracleManager.close`). Every public method of the class is
  `synchronized`, so each call is one atomic transition.
- `properties.dfy` (module `CacheProperties`): lemmas for each kind of cached
  connection, the recycle/get round trip, first-releaser-wins, keys that do
  not collide, finalize closing each connection once, and a concrete
  alice/bob scenario.
- `clients.dfy` (module `Clients`): `OracleManager` instances, each with
  the cache key its options name and the one connection it holds. A
  manager obtains a connection through `makeConnection` (cache first, then
  a fresh connection on a miss) and gives it back through `close`, which
  `finalize` calls again. The server may drop a connection, and a holder
  may make its connection read-only. As written, `close` keeps the
  manager's reference, so a later `finalize` recycles a connection another
  manager may hold by then (see Findings). With the reference dropped on
  close, no run ever lets two managers hold one connection, and no cached
  connection is held by any manager.

Driver faults are inputs. Each call is recorded in the trace even when it
raises. A call that raises changes no flag. The contracts of the
transitions `GetConnection`, `Validate`, `Recycle`, `ManagerClose` and
`Finalize` hold for every pattern of driver failures. Some lemmas in
`properties.dfy` are stated for the case where none of the calls involved
raises, and their rows say so.

Three facts about the code shape the model:

- When `recycle` discards a connection and that `close()` raises, the
  exception reaches the caller (line 151, `throws SQLException`). It is not
  absorbed.
- `finalize` does not empty the map. It only closes the connections, and
  the first `close()` that raises stops the loop.
- `getConnection` asks `isClosed()` after it has closed a read-only
  connection. So a read-only connection is closed and then answered null.

## Model

| member | source | states |
|---|---|---|
| CacheKeys.Equals | src/java/org/apache/hadoop/sqoop/manager/OracleManager.java:71-84 | equals as written raises exactly when the receiver has a username and the argument has none; otherwise it answers true exactly when the keys are the same value |
| CacheKeys.EqualsCorrected | src/java/org/apache/hadoop/sqoop/manager/OracleManager.java:71-84 | the intended equality (same connect string; usernames both null or both present and equal) never raises and coincides with value equality, which the cache map's keys use |
| CacheKeys.NullNeverEqualsPresent | src/java/org/apache/hadoop/sqoop/manager/OracleManager.java:75-76 | a null-username key never equals a key with a username, in either direction; as written, a null-username receiver answers false |
| CacheKeys.StringHash | src/java/org/apache/hadoop/sqoop/manager/OracleManager.java:89-91 | java.lang.String.hashCode as these lines call it, h = 31 * h + c in wrapping 32-bit arithmetic. It has no contract of its own; CacheKeys.NullUsernameCollision uses that the empty string hashes to 0 |
| CacheKeys.Hash | src/java/org/apache/hadoop/sqoop/manager/OracleManager.java:86-93 | CacheKey.hashCode. It has no contract of its own: its properties are CacheKeys.HashConsistentWithEquals (equal keys hash alike, and a null username hashes to the connect string's hash alone) and CacheKeys.NullUsernameCollision (an empty username hashes like a null one) |
| CacheKeys.HashConsistentWithEquals | src/java/org/apache/hadoop/sqoop/manager/OracleManager.java:86-93 | keys that are equal under either reading have equal hash codes, and a null username hashes to the connect string's hash alone |
| CacheKeys.Probe | src/java/org/apache/hadoop/sqoop/manager/OracleManager.java:116 | the HashMap lookup finds the first stored key equal to the probe, answers null only when the probe is not stored, and raises only when some stored null-username key shares the probe's hash code |
| CacheKeys.ProbeWithoutHazard | src/java/org/apache/hadoop/sqoop/manager/OracleManager.java:72-93 | with no such hazardous key in the bucket, the lookup never raises and finds the probe exactly when it is stored |
| CacheKeys.NullUsernameCollision | src/java/org/apache/hadoop/sqoop/manager/OracleManager.java:77-79 | the empty username gives the same hash code as a null username, and looking it up in a bucket holding the null-username key raises NullPointerException |
| ConnCache.NewCache | src/java/org/apache/hadoop/sqoop/manager/OracleManager.java:103-106 | a new cache is empty and well formed |
| ConnCache.GetConnection | src/java/org/apache/hadoop/sqoop/manager/OracleManager.java:113-136 | on a miss nothing changes and null is answered. On a hit the key's entry is gone whatever happens, no other entry changes, and only the cached connection is called. Its calls are the validation script up to the first raising one. The call raises exactly when a script call does. Otherwise it answers the connection if it was usable, null if not |
| ConnCache.Validate | src/java/org/apache/hadoop/sqoop/manager/OracleManager.java:119-135 | the removed connection runs isReadOnly, close if read-only, isClosed, then rollback and clearWarnings only while open. A usable connection is handed out. It ends closed exactly when it was closed, or read-only with neither isReadOnly nor close raising |
| ConnCache.CloseIssued | src/java/org/apache/hadoop/sqoop/manager/OracleManager.java:119-122 | of the validation calls, close is made exactly on a read-only connection whose isReadOnly did not raise |
| ConnCache.Answered | src/java/org/apache/hadoop/sqoop/manager/OracleManager.java:121-135 | once isReadOnly has answered, a read-only connection is closed and answered null, and any other is reset if open; a usable one is handed out. Only a read-only connection whose close did not raise changes a flag: it ends closed |
| ConnCache.CloseAndReset | src/java/org/apache/hadoop/sqoop/manager/OracleManager.java:121-127 | a read-only connection gets close, then isClosed; it is never rolled back and never handed out. It ends closed unless the close raised, when its flags stay as they were |
| ConnCache.ResetIfOpen | src/java/org/apache/hadoop/sqoop/manager/OracleManager.java:124-135 | a closed connection is answered null after isClosed alone; an open one is rolled back and cleared before it is handed out; no flag changes |
| ConnCache.RollbackAndHandOut | src/java/org/apache/hadoop/sqoop/manager/OracleManager.java:129-135 | rollback comes before clearWarnings; the connection is handed out only when neither raises |
| ConnCache.ClearAndHandOut | src/java/org/apache/hadoop/sqoop/manager/OracleManager.java:130-135 | clearWarnings, then the same connection is handed out unless the call raised |
| ConnCache.Recycle | src/java/org/apache/hadoop/sqoop/manager/OracleManager.java:143-158 | under an occupied key, the map is unchanged and the incoming connection alone gets one close (its failure propagates). After a normal close that connection ends closed with its readOnly flag kept; a close that raises leaves its flags as they were. Under a free key, the connection is stored and nothing else changes. Either way every earlier entry keeps its value |
| ConnCache.ManagerClose | src/java/org/apache/hadoop/sqoop/manager/OracleManager.java:179-186 | a manager without a connection changes nothing. One with a connection stores it under its connect string and username when that slot is free, with no call and no flag change. When the slot is taken, the map is unchanged, the held connection alone gets one close, and the exception propagates exactly when that close raises. The held connection then ends closed with its readOnly flag kept, or keeps its flags when the close raised |
| ConnCache.Finalize | src/java/org/apache/hadoop/sqoop/manager/OracleManager.java:160-167 | the map is not cleared. The trace grows by one close per visited entry, in visiting order, up to and including the first close that raises. It raises exactly when one of those closes does. Only the closed flags can change (CacheProperties.FinalizeFlags) |
| CacheProperties.FinalizeClosesVisited | src/java/org/apache/hadoop/sqoop/manager/OracleManager.java:160-164 | when no close raises, every visited connection ends closed; closed connections stay closed; connections not in the map are untouched |
| CacheProperties.FinalizeClosesEachOnce | src/java/org/apache/hadoop/sqoop/manager/OracleManager.java:160-164 | over all entries, with no connection under two keys and no close raising: each cached connection is closed with exactly one close call, nothing else is called, and the map stays as it was |
| CacheProperties.FinalizeFlags | src/java/org/apache/hadoop/sqoop/manager/OracleManager.java:160-167 | whatever raises, every connection ends closed exactly when a close was made on it and returned normally, and keeps its flags otherwise; readOnly never changes |
| CacheProperties.UnusableIsNeverReset | src/java/org/apache/hadoop/sqoop/manager/OracleManager.java:119-127 | a cached connection that is closed or read-only is never rolled back or cleared, and is never handed out, whatever raises |
| CacheProperties.ReadOnlyIsClosedOnce | src/java/org/apache/hadoop/sqoop/manager/OracleManager.java:119-127 | when none of its calls raises, a read-only cached connection gets isReadOnly, exactly one close, and isClosed. It ends closed, its entry is gone and null is answered |
| CacheProperties.ClosedIsAnsweredNull | src/java/org/apache/hadoop/sqoop/manager/OracleManager.java:124-127 | when none of its calls raises, an already closed, writable cached connection gets only isReadOnly and isClosed, and null is answered |
| CacheProperties.UsableIsResetAndHandedOut | src/java/org/apache/hadoop/sqoop/manager/OracleManager.java:129-135 | when none of its calls raises, an open, writable cached connection gets isReadOnly, isClosed, rollback, then clearWarnings. That same connection is handed out with its flags unchanged |
| CacheProperties.RecycleThenGet | src/java/org/apache/hadoop/sqoop/manager/OracleManager.java:113-158 | when none of its calls raises, a usable connection recycled under a free key is handed back by the next getConnection for that key, and the map returns to its previous contents |
| CacheProperties.OtherKeyMisses | src/java/org/apache/hadoop/sqoop/manager/OracleManager.java:113-117 | a lookup under any other uncached key (another connect string, another username, or null against present) answers null and leaves the recycled entry in place |
| CacheProperties.SecondRecycleIsDiscarded | src/java/org/apache/hadoop/sqoop/manager/OracleManager.java:146-157 | when the second connection's close does not raise, of two connections recycled under one free key the first stays cached, and the second gets exactly one close call, ends closed and the recycle returns normally |
| CacheProperties.AliceAndBob | src/java/org/apache/hadoop/sqoop/manager/OracleManager.java:62-158 | with no call raising, a connection released under (db, alice) is not handed to (db, bob) or to (db, null), and is then handed back to (db, alice), leaving the cache empty |
| Clients.Create | src/java/org/apache/hadoop/sqoop/manager/OracleManager.java:175-177 | a new manager holds no connection. The cache, every connection's flags, the trace, the next connection identity and every earlier manager are unchanged, and the invariant is kept |
| Clients.Connect | src/java/org/apache/hadoop/sqoop/manager/OracleManager.java:212-227 | a manager that holds a connection keeps it and nothing changes. One that holds none loses its key's cache entry, and the trace and flags are exactly those getConnection leaves. It then holds the connection the cache hands out. When the cache answers null, it holds a connection that did not exist before, open and writable, and the next identity advances. When the cache raises, it holds nothing. Every other manager is unchanged |
| Clients.ConnectKeepsInv | src/java/org/apache/hadoop/sqoop/manager/OracleManager.java:113-136 | obtaining a connection keeps the invariant: a connection taken from the cache was held by no manager, and a fresh one by nobody |
| Clients.CloseAsWritten | src/java/org/apache/hadoop/sqoop/manager/OracleManager.java:179-186 | close as written gives the held connection back through the cache's recycle. It leaves every manager's reference and the next connection identity as they were |
| Clients.CloseCorrected | src/java/org/apache/hadoop/sqoop/manager/OracleManager.java:179-186 | the corrected close gives the held connection back through the same recycle, and the manager then holds nothing. It keeps the invariant: no connection cached twice, none both cached and held, none held by two managers |
| Clients.Step | src/java/org/apache/hadoop/sqoop/manager/OracleManager.java:175-186 | every step (create, obtain, corrected close, the server closing a connection, a holder making its connection read-only) keeps the invariant |
| Clients.Run | src/java/org/apache/hadoop/sqoop/manager/OracleManager.java:113-186 | the invariant holds after any sequence of steps |
| Clients.StepAsWritten | src/java/org/apache/hadoop/sqoop/manager/OracleManager.java:179-186 | one step with close as written (and the finalizer as one more close, lines 420-424): it keeps the world well formed (every cached and every held connection exists, and every connection identity is below the next one), though not the invariant |
| Clients.RunAsWritten | src/java/org/apache/hadoop/sqoop/manager/OracleManager.java:179-186 | any sequence of steps with close as written keeps the world well formed; Clients.FinalizeAfterCloseShares is one such run that breaks the invariant |
| Clients.NeverHandedOutTwice | src/java/org/apache/hadoop/sqoop/manager/OracleManager.java:113-136 | after any run from an empty cache, no two managers hold the same connection, no cached connection is held by a manager, and a connection getConnection hands out is held by no manager and remains cached under no key |
| Clients.FinalizeAfterCloseShares | src/java/org/apache/hadoop/sqoop/manager/OracleManager.java:179-186 | as written, a manager that closes, and is then closed again by its finalizer after another manager took its connection from the cache, lets a third manager be handed that same connection: two managers hold connection 0 |
| Clients.FinalizeAfterCloseCorrected | src/java/org/apache/hadoop/sqoop/manager/OracleManager.java:420-424 | with the corrected close, the same sequence gives the third manager a fresh connection, while the second keeps connection 0 |

## Findings

| source | as written | input that shows it | evidently intended | confidence | as-written member | corrected member |
|---|---|---|---|---|---|---|
| src/java/org/apache/hadoop/sqoop/manager/OracleManager.java:77-79 | a receiver with a username calls `k.username.equals(...)` without checking `k.username` for null | `("db", null)` is cached; then `getConnection("db", "")` runs. The two keys have equal hash codes, because the hash of "" is 0. So `HashMap.get` calls `equals` with the cached key, which raises NullPointerException | answer false for a null-username argument, as the null-username branch already does the other way round | high; not executed | CacheKeys.NullUsernameCollision | CacheKeys.EqualsCorrected |
| src/java/org/apache/hadoop/sqoop/manager/OracleManager.java:179-186 | `close` recycles the manager's connection but keeps the reference to it, so `hasOpenConnection()` stays true. `finalize` (lines 420-424) then calls `close` again and recycles the same connection a second time | manager A obtains connection 0 and closes. Manager B takes 0 from the cache. A's finalizer runs `close`, storing 0 under the key again. Manager C then obtains 0 while B still holds it | drop the manager's reference once its connection has been given back, so a second `close` does nothing | medium: the superclass's `hasOpenConnection` is not part of this model and is taken to be true while the manager keeps its reference; not executed | Clients.FinalizeAfterCloseShares | Clients.CloseCorrected |

The as-written `CacheKeys.Equals` and `CacheKeys.Probe` keep the exception
of the first row, and `CacheKeys.ProbeWithoutHazard` shows when the two
readings of equality agree. `Clients.CloseAsWritten` keeps the reference of
the second row. The rest of the model uses the corrected definitions.

## Left out

- `makeConnection` (lines 201-236) is only modelled through its cache part in
  `Clients.Connect`. Driver loading and `DriverManager.getConnection` are
  abstracted as "a fresh, open, writable connection". Connect failures, and
  the `setTransactionIsolation` and `setSessionTimeZone` calls made on every
  handed-out connection, are I/O and reflection, so they are not modelled.
- Clients.Connect: the superclass (`SqlManager`, `GenericJdbcManager`) is not
  part of this model. Its `getConnection` is taken to run `makeConnection`
  exactly when the manager holds no connection, and `hasOpenConnection()`
  to be true exactly when it holds one.
- `setSessionTimeZone`, `toJavaType`, `dbToJavaType`, `toHiveType`,
  `dbToHiveType`, `getDatabaseType` and `getTypeClass` (lines 243-418) are
  left out. They are reflection lookups and superclass type mappings that
  the cache does not use.
- `readTable`, `getColNamesQuery` and `importTable` are left out. They build
  SQL strings and wire jobs through superclass methods that this model does
  not include.
- The statement release in `OracleManager.close` (`release()`, line 180)
  belongs to the superclass and is left out. `OracleManager.finalize`
  (lines 420-424) just calls `close`. In `Clients` it is one more
  `CloseManager` step on the same manager.
- `synchronized` locking, and when the garbage collector runs `finalize`,
  are not modelled. Each call is an atomic step, and `Finalize` is an
  explicit teardown. `super.finalize()` is not modelled, and neither is the
  JVM discarding an exception a finalizer raises.
- Logging calls and `CacheKey.toString` (used only for logging) are left out.
- The `instanceof` test in `equals` is not modelled. The map only ever
  compares `CacheKey`s with each other.
- A null connect string (a NullPointerException in `equals` and `hashCode`)
  is not modelled: the connect string is always present.
- A null connection passed to `recycle` is not modelled. `OracleManager.close`
  only recycles a connection it holds.
- CacheKeys.StringHash hashes Dafny characters (Unicode scalar values).
  Java hashes UTF-16 code units, so the two agree only for strings inside
  the Basic Multilingual Plane.
- CacheKeys.Probe models one chained HashMap bucket. Resizing, tree bins and
  the bit spreading of hash codes are not modelled. The spreading is a
  bijection, so it does not change which keys are compared.
- Whether a driver raises on `isReadOnly()` for a closed connection is
  driver-specific. The `faults` set expresses it; without a fault, the call
  answers the flag.
- CacheProperties.FinalizeClosesEachOnce assumes no connection is cached
  under two keys. The source allows that case (recycling one connection
  under two keys), and then `finalize` calls close on that connection once
  per key. `ConnCache.Finalize` itself covers it.
- Clients.NeverHandedOutTwice is proved for the corrected `close`, which
  drops the manager's reference. For `close` as written it does not hold
  (second row of Findings).
- ConnCache.GetConnection and ConnCache.Recycle look keys up by value
  equality, the corrected `equals`. Where `HashMap.get` with the as-written
  `equals` raises NullPointerException (first row of Findings), they answer
  a miss or find the free slot instead.

=== FILE: cache_key.dfy ===
/** The cache key of OracleManager's connection cache: a connect string plus an
    optional username, with the hashCode and equals the Java class defines,
    and the bucket scan java.util.HashMap performs with them. */
module CacheKeys {
  import opened Wrappers

  /** java.lang.String.hashCode: h := 31 * h + c over the characters, in 32-bit
      two's complement (bv32 arithmetic wraps exactly as Java's int does). */
  function StringHash(s: string): bv32
  {
    if |s| == 0 then 0 else StringHash(s[..|s| - 1]) * 31 + CharCode(s[|s| - 1])
  }

  function CharCode(c: char): bv32
  {
    (c as int) as bv32
  }

  /** A connect string and a username that may be null (None). */
  datatype CacheKey = CacheKey(connectString: string, username: Option<string>)

  /** CacheKey.hashCode: the connect string's hash, xor-ed with the username's
      hash when there is one. */
  function Hash(k: CacheKey): bv32
  {
    match k.username
    case None => StringHash(k.connectString)
    case Some(u) => StringHash(u) ^ StringHash(k.connectString)
  }

  datatype JavaError = NullPointerException

  /** CacheKey.equals as written, with `self` the receiver and `other` the
      argument. A receiver with a username dereferences the argument's
      username unchecked, so a null-username argument raises. */
  function Equals(self: CacheKey, other: CacheKey): (r: Result<bool, JavaError>)
    ensures r.Failure? <==> self.username.Some? && other.username.None?
    ensures r.Success? ==> (r.value <==> self == other)
  {
    match self.username
    case None => Success(other.username.None? && other.connectString == self.connectString)
    case Some(u) =>
      match other.username
      case None => Failure(NullPointerException)
      case Some(v) => Success(v == u && other.connectString == self.connectString)
  }

  /** The equality the class evidently intends: equal connect strings, and
      usernames both null or both present and equal. It never raises, and it
      coincides with value equality, which is what the map keys of the
      cache model use. */
  function EqualsCorrected(self: CacheKey, other: CacheKey): (r: bool)
    ensures r <==> self == other
  {
    && other.connectString == self.connectString
    && match (self.username, other.username)
       case (None, None) => true
       case (Some(u), Some(v)) => u == v
       case _ => false
  }

  /** The stored key on which `Equals(probe, stored)` raises although the two
      keys share a bucket slot (equal hash codes). */
  predicate Hazard(stored: CacheKey, probe: CacheKey)
  {
    Hash(stored) == Hash(probe) && probe.username.Some? && stored.username.None?
  }

  /** The lookup java.util.HashMap.get performs in one bucket: stored keys are
      visited in chain order and, for each whose hash equals the probe's, the
      probe's equals is called with it. The index of the first match, or
      None; a raising equals aborts the lookup. */
  function Probe(bucket: seq<CacheKey>, probe: CacheKey): (r: Result<Option<nat>, JavaError>)
    ensures r.Success? && r.value.Some? ==>
      r.value.value < |bucket| && bucket[r.value.value] == probe
      && forall j :: 0 <= j < r.value.value ==> bucket[j] != probe
    ensures r.Success? && r.value.None? ==> probe !in bucket
    ensures r.Failure? ==> exists j :: 0 <= j < |bucket| && Hazard(bucket[j], probe)
    decreases |bucket|
  {
    if |bucket| == 0 then Success(None)
    else if Hash(bucket[0]) == Hash(probe) && Equals(probe, bucket[0]).Failure? then
      Failure(NullPointerException)
    else if Hash(bucket[0]) == Hash(probe) && Equals(probe, bucket[0]) == Success(true) then
      Success(Some(0))
    else
      match Probe(bucket[1..], probe)
      case Failure(e) => Failure(e)
      case Success(None) => Success(None)
      case Success(Some(i)) => Success(Some(i + 1))
  }

  /** Equal keys hash equally under both readings of equality, and a key
      without a username hashes to its connect string's hash alone. */
  lemma HashConsistentWithEquals(a: CacheKey, b: CacheKey)
    ensures EqualsCorrected(a, b) ==> Hash(a) == Hash(b)
    ensures Equals(a, b) == Success(true) ==> Hash(a) == Hash(b)
    ensures a.username.None? ==> Hash(a) == StringHash(a.connectString)
  {
  }

  /** A key without a username never equals a key with one, whichever is
      the receiver, under the intended reading; as written, the null-username
      receiver answers false. */
  lemma NullNeverEqualsPresent(a: CacheKey, b: CacheKey)
    requires a.username.None? && b.username.Some?
    ensures Equals(a, b) == Success(false)
    ensures !EqualsCorrected(a, b) && !EqualsCorrected(b, a)
  {
  }

  /** Without a hazardous stored key the bucket scan never raises, and it
      then finds the probe exactly when the probe is stored. */
  lemma {:induction false} ProbeWithoutHazard(bucket: seq<CacheKey>, probe: CacheKey)
    requires forall j :: 0 <= j < |bucket| ==> !Hazard(bucket[j], probe)
    ensures Probe(bucket, probe).Success?
    ensures Probe(bucket, probe).value.Some? <==> probe in bucket
  {
    if |bucket| > 0 {
      ProbeWithoutHazard(bucket[1..], probe);
      if probe !in bucket[1..] && probe != bucket[0] {
        assert probe !in bucket;
      }
    }
  }

  /** The as-written equals raises inside HashMap.get: a key with the empty
      username (String hash 0) has the same hash code as the null-username
      key for the same connect string, so looking it up in a bucket holding
      that key calls the throwing branch of equals. */
  lemma NullUsernameCollision(connect: string)
    ensures Hash(CacheKey(connect, Some(""))) == Hash(CacheKey(connect, None))
    ensures Equals(CacheKey(connect, Some("")), CacheKey(connect, None))
      == Failure(NullPointerException)
    ensures Probe([CacheKey(connect, None)], CacheKey(connect, Some("")))
      == Failure(NullPointerException)
  {
    assert StringHash("") == 0;
  }
}

=== FILE: clients.dfy ===
/** The cache as OracleManager instances use it. Each manager keeps at most
    one connection (the superclass's connection field): it obtains one
    through makeConnection, which asks the cache first and opens a fresh
    connection on a miss, and OracleManager.close gives it back. finalize
    calls close again. As written, close keeps the manager's reference, so
    a second close recycles a connection another manager may already hold;
    with the reference dropped on close, no connection is ever held by two
    managers or cached while one holds it. */
module Clients {
  import opened Wrappers
  import opened CacheKeys
  import opened Jdbc
  import opened ConnCache
  import opened CacheProperties

  /** One OracleManager: the cache key its options name, and the connection
      it holds (null until its first connection). */
  datatype Manager = Manager(key: CacheKey, conn: Option<ConnId>)

  /** One step of the managers or of the environment. A step naming a
      manager that does not exist changes nothing. */
  datatype Op =
    | Construct(key: CacheKey)
    | Obtain(m: nat, faults: set<Invocation>)
    | CloseManager(m: nat, faults: set<Invocation>)
    | ServerClose(conn: ConnId)
    | MakeReadOnly(m: nat)

  /** The cache, the managers created so far, and the identity the driver
      gives the next connection it opens. */
  datatype World = World(st: State, managers: seq<Manager>, next: ConnId)

  /** Some manager holds connection `c`. */
  predicate Held(w: World, c: ConnId)
  {
    exists m :: 0 <= m < |w.managers| && w.managers[m].conn == Some(c)
  }

  /** Every connection cached or held exists, and the driver has not yet
      used the identity `next`. */
  predicate WellFormed(w: World)
  {
    && Valid(w.st)
    && (forall id :: id in w.st.conns ==> id < w.next)
    && forall m :: 0 <= m < |w.managers| && w.managers[m].conn.Some? ==>
         w.managers[m].conn.value in w.st.conns
  }

  /** No two managers hold the same connection. */
  predicate Exclusive(managers: seq<Manager>)
  {
    forall m, n ::
      0 <= m < |managers| && 0 <= n < |managers| && m != n && managers[m].conn.Some? ==>
        managers[m].conn != managers[n].conn
  }

  /** The safety invariant: no connection is cached under two keys, no
      cached connection is held by a manager, and no connection is held by
      two managers. */
  predicate Inv(w: World)
  {
    && WellFormed(w)
    && Injective(w.st.cache)
    && (forall k :: k in w.st.cache ==> !Held(w, w.st.cache[k]))
    && Exclusive(w.managers)
  }

  /** `new OracleManager(options)`: a manager without a connection. */
  function Create(w: World, key: CacheKey): (w': World)
    requires WellFormed(w)
    ensures WellFormed(w') && (Inv(w) ==> Inv(w'))
    ensures |w'.managers| == |w.managers| + 1 && w'.managers[|w.managers|] == Manager(key, None)
    ensures w'.st == w.st && w'.next == w.next && w'.managers[..|w.managers|] == w.managers
  {
    var w' := w.(managers := w.managers + [Manager(key, None)]);
    assert forall c: ConnId :: Held(w', c) ==> Held(w, c) by {
      forall c: ConnId | Held(w', c) ensures Held(w, c) {
        var m :| 0 <= m < |w'.managers| && w'.managers[m].conn == Some(c);
        assert w'.managers[m] == w.managers[m];
      }
    }
    assert w'.managers[..|w.managers|] == w.managers;
    w'
  }

  /** The superclass's getConnection on manager `m`: a manager that holds a
      connection keeps it; one that holds none runs makeConnection (lines
      212-227), taking the cached connection on a hit and a fresh, open,
      writable one on a miss. An exception leaves it holding nothing. The
      cache's calls and flag changes are those of GetConnection; a miss
      adds the new connection and advances `next`. */
  function Connect(w: World, m: nat, faults: set<Invocation>): (w': World)
    requires WellFormed(w)
    ensures WellFormed(w')
    ensures |w'.managers| == |w.managers|
    ensures forall n :: 0 <= n < |w.managers| && n != m ==> w'.managers[n] == w.managers[n]
    ensures m < |w.managers| && w.managers[m].conn.None? ==>
      var t := GetConnection(w.st, w.managers[m].key, faults);
      && w'.st.cache == w.st.cache - {w.managers[m].key}
      && w'.managers[m].key == w.managers[m].key
      && w'.st.trace == t.after.trace
      && (t.outcome.Normal? && t.outcome.value.Some? ==> w'.managers[m].conn == t.outcome.value)
      && (t.outcome.Normal? && t.outcome.value.None? ==>
            && w'.managers[m].conn == Some(w.next) && w.next !in w.st.conns
            && w'.st.conns == t.after.conns[w.next := ConnState(false, false)]
            && w'.next == w.next + 1)
      && (!(t.outcome.Normal? && t.outcome.value.None?) ==> w'.st == t.after && w'.next == w.next)
      && (t.outcome.Raised? ==> w'.managers[m].conn.None?)
    ensures m >= |w.managers| || w.managers[m].conn.Some? ==> w' == w
  {
    if m >= |w.managers| || w.managers[m].conn.Some? then w
    else
      var key := w.managers[m].key;
      var t := GetConnection(w.st, key, faults);
      match t.outcome
      case Normal(Some(c)) =>
        World(t.after, w.managers[m := Manager(key, Some(c))], w.next)
      case Normal(None) =>
        World(t.after.(conns := t.after.conns[w.next := ConnState(false, false)]),
              w.managers[m := Manager(key, Some(w.next))], w.next + 1)
      case Raised(_) => World(t.after, w.managers, w.next)
  }

  /** Connect keeps the invariant: a connection taken from the cache was
      held by no manager, and a fresh one is known to nobody. */
  lemma ConnectKeepsInv(w: World, m: nat, faults: set<Invocation>)
    requires WellFormed(w)
    ensures Inv(w) ==> Inv(Connect(w, m, faults))
  {
    var w' := Connect(w, m, faults);
    if Inv(w) && m < |w.managers| && w.managers[m].conn.None? {
      var key := w.managers[m].key;
      var t := GetConnection(w.st, key, faults);
      assert forall k :: k in w'.st.cache ==> k in w.st.cache && w'.st.cache[k] == w.st.cache[k];
      if t.outcome.Normal? && t.outcome.value.Some? {
        var c := w.st.cache[key];
        assert !Held(w, c);
        HeldAfterAssign(w, w', m, c);
        forall k | k in w'.st.cache ensures !Held(w', w'.st.cache[k]) {
          assert k != key;
          assert w'.st.cache[k] != c;
        }
      } else if t.outcome.Normal? {
        assert !Held(w, w.next);
        HeldAfterAssign(w, w', m, w.next);
      } else {
        assert w'.managers == w.managers;
      }
    }
  }

  /** Giving manager `m` a connection `c` only adds `c` to what is held. */
  lemma HeldAfterAssign(w: World, w': World, m: nat, c: ConnId)
    requires m < |w.managers| && w.managers[m].conn.None?
    requires w'.managers == w.managers[m := Manager(w.managers[m].key, Some(c))]
    requires Exclusive(w.managers) && !Held(w, c)
    ensures Exclusive(w'.managers)
    ensures forall d :: Held(w', d) <==> Held(w, d) || d == c
  {
    forall n | 0 <= n < |w.managers| && n != m && w.managers[n].conn.Some?
      ensures w.managers[n].conn != Some(c)
    {
    }
    forall d: ConnId | Held(w, d) ensures Held(w', d) {
      var n :| 0 <= n < |w.managers| && w.managers[n].conn == Some(d);
      assert n != m;
      assert w'.managers[n] == w.managers[n];
    }
    assert w'.managers[m].conn == Some(c);
  }

  /** OracleManager.close as written (lines 179-186), which
      OracleManager.finalize (lines 420-424) calls again: a manager holding
      a connection recycles it under its key and keeps holding it. */
  function CloseAsWritten(w: World, m: nat, faults: set<Invocation>): (w': World)
    requires WellFormed(w)
    ensures WellFormed(w')
    ensures w'.managers == w.managers && w'.next == w.next
    ensures m < |w.managers| && w.managers[m].conn.Some? ==>
      w'.st == ManagerClose(w.st, w.managers[m].key.connectString, w.managers[m].key.username,
                            w.managers[m].conn, faults).after
    ensures m >= |w.managers| || w.managers[m].conn.None? ==> w' == w
  {
    if m >= |w.managers| then w
    else
      var mgr := w.managers[m];
      var t := ManagerClose(w.st, mgr.key.connectString, mgr.key.username, mgr.conn, faults);
      World(t.after, w.managers, w.next)
  }

  /** OracleManager.close as evidently intended: the connection is given
      back to the cache and the manager stops holding it, whether it was
      stored, discarded or its close raised. It keeps the invariant. */
  function CloseCorrected(w: World, m: nat, faults: set<Invocation>): (w': World)
    requires Inv(w)
    ensures Inv(w')
    ensures |w'.managers| == |w.managers| && w'.next == w.next
    ensures forall n :: 0 <= n < |w.managers| && n != m ==> w'.managers[n] == w.managers[n]
    ensures m < |w.managers| ==>
      && w'.managers[m] == Manager(w.managers[m].key, None)
      && w'.st == ManagerClose(w.st, w.managers[m].key.connectString, w.managers[m].key.username,
                               w.managers[m].conn, faults).after
    ensures m >= |w.managers| ==> w' == w
  {
    if m >= |w.managers| then w
    else
      var mgr := w.managers[m];
      var t := ManagerClose(w.st, mgr.key.connectString, mgr.key.username, mgr.conn, faults);
      var w' := World(t.after, w.managers[m := Manager(mgr.key, None)], w.next);
      ReleaseKeepsInv(w, m, faults, w');
      w'
  }

  lemma ReleaseKeepsInv(w: World, m: nat, faults: set<Invocation>, w': World)
    requires Inv(w) && m < |w.managers|
    requires w'.managers == w.managers[m := Manager(w.managers[m].key, None)] && w'.next == w.next
    requires w'.st == ManagerClose(w.st, w.managers[m].key.connectString,
                                   w.managers[m].key.username, w.managers[m].conn, faults).after
    ensures Inv(w')
  {
    var mgr := w.managers[m];
    assert CacheKey(mgr.key.connectString, mgr.key.username) == mgr.key;
    forall d: ConnId | Held(w', d) ensures Held(w, d) && mgr.conn != Some(d) {
      var n :| 0 <= n < |w'.managers| && w'.managers[n].conn == Some(d);
      assert n != m && w'.managers[n] == w.managers[n];
    }
    if mgr.conn.Some? {
      var c := mgr.conn.value;
      var t := Recycle(w.st, mgr.key, c, faults);
      assert t.after == w'.st;
      assert c !in w.st.cache.Values;
      if mgr.key !in w.st.cache {
        assert w'.st.cache == w.st.cache[mgr.key := c];
      } else {
        assert w'.st.cache == w.st.cache;
      }
    }
  }

  /** Steps other than a manager's close, shared by both readings. They
      keep the invariant whenever it holds before. */
  function Environment(w: World, op: Op): (w': World)
    requires WellFormed(w) && !op.CloseManager?
    ensures WellFormed(w') && (Inv(w) ==> Inv(w'))
  {
    match op
    case Construct(key) => Create(w, key)
    case Obtain(m, faults) =>
      ConnectKeepsInv(w, m, faults);
      Connect(w, m, faults)
    case ServerClose(c) =>
      if c in w.st.conns then Touch(w, c, w.st.conns[c].(closed := true)) else w
    case MakeReadOnly(m) =>
      if m < |w.managers| && w.managers[m].conn.Some? then
        var c := w.managers[m].conn.value;
        Touch(w, c, w.st.conns[c].(readOnly := true))
      else w
  }

  /** A flag change on an existing connection, made outside the cache: the
      server dropping it or its holder making it read-only. */
  function Touch(w: World, c: ConnId, st: ConnState): (w': World)
    requires WellFormed(w) && c in w.st.conns
    ensures WellFormed(w') && (Inv(w) ==> Inv(w'))
    ensures w'.st.conns == w.st.conns[c := st]
    ensures w'.st.cache == w.st.cache && w'.st.trace == w.st.trace
    ensures w'.managers == w.managers && w'.next == w.next
  {
    var w' := w.(st := w.st.(conns := w.st.conns[c := st]));
    assert forall d :: Held(w', d) <==> Held(w, d);
    w'
  }

  /** One step with the corrected close. */
  function Step(w: World, op: Op): (w': World)
    requires Inv(w)
    ensures Inv(w')
  {
    match op
    case CloseManager(m, faults) => CloseCorrected(w, m, faults)
    case _ => Environment(w, op)
  }

  /** The ops run in order with the corrected close. */
  function Run(w: World, ops: seq<Op>): (w': World)
    requires Inv(w)
    ensures Inv(w')
    decreases |ops|
  {
    if |ops| == 0 then w else Run(Step(w, ops[0]), ops[1..])
  }

  /** One step with close as written. Only the close differs from Step. */
  function StepAsWritten(w: World, op: Op): (w': World)
    requires WellFormed(w)
    ensures WellFormed(w')
  {
    match op
    case CloseManager(m, faults) => CloseAsWritten(w, m, faults)
    case _ => Environment(w, op)
  }

  /** The ops run in order with close as written. */
  function RunAsWritten(w: World, ops: seq<Op>): (w': World)
    requires WellFormed(w)
    ensures WellFormed(w')
    decreases |ops|
  {
    if |ops| == 0 then w else RunAsWritten(StepAsWritten(w, ops[0]), ops[1..])
  }

  /** The static cache as class loading leaves it, before any manager. */
  function Start(): (w: World)
    ensures Inv(w) && |w.managers| == 0 && |w.st.cache| == 0
  {
    World(NewCache(map[]), [], 0)
  }

  /** No double hand-out: after any run from the start, no two managers
      hold the same connection, no cached connection is held, and a
      connection getConnection hands out is held by no manager and stays
      cached under no key. */
  lemma NeverHandedOutTwice(ops: seq<Op>, key: CacheKey, faults: set<Invocation>)
    ensures var w := Run(Start(), ops);
      && (forall m, n ::
            0 <= m < |w.managers| && 0 <= n < |w.managers| && m != n && w.managers[m].conn.Some? ==>
              w.managers[m].conn != w.managers[n].conn)
      && (forall k, m :: k in w.st.cache && 0 <= m < |w.managers| ==>
            w.managers[m].conn != Some(w.st.cache[k]))
      && var t := GetConnection(w.st, key, faults);
         t.outcome.Normal? && t.outcome.value.Some? ==>
           !Held(w, t.outcome.value.value) && t.outcome.value.value !in t.after.cache.Values
  {
    var w := Run(Start(), ops);
    forall k, m | k in w.st.cache && 0 <= m < |w.managers|
      ensures w.managers[m].conn != Some(w.st.cache[k])
    {
      assert !Held(w, w.st.cache[k]);
    }
    HitIsFree(w, key, faults);
  }

  lemma HitIsFree(w: World, key: CacheKey, faults: set<Invocation>)
    requires Inv(w)
    ensures var t := GetConnection(w.st, key, faults);
      t.outcome.Normal? && t.outcome.value.Some? ==>
        !Held(w, t.outcome.value.value) && t.outcome.value.value !in t.after.cache.Values
  {
    var t := GetConnection(w.st, key, faults);
    if t.outcome.Normal? && t.outcome.value.Some? {
      var c := w.st.cache[key];
      assert t.outcome.value.value == c;
    }
  }

  /** Manager 0 connects and closes; manager 1 takes the connection from
      the cache; the finalizer of manager 0 closes it again; manager 2 then
      connects under the same key. */
  function FinalizeAfterClose(key: CacheKey): seq<Op>
  {
    [Construct(key), Obtain(0, {}), CloseManager(0, {}), Construct(key), Obtain(1, {}),
     CloseManager(0, {}), Construct(key), Obtain(2, {})]
  }

  /** As written, the second close recycles the connection manager 1 still
      holds, and manager 2 is handed that same connection: two managers
      share connection 0. */
  lemma FinalizeAfterCloseShares(key: CacheKey)
    ensures var w := RunAsWritten(Start(), FinalizeAfterClose(key));
      |w.managers| == 3 && w.managers[1].conn == Some(0) && w.managers[2].conn == Some(0)
  {
    var ops := FinalizeAfterClose(key);
    var w0 := Start();
    var w1 := StepAsWritten(w0, ops[0]);
    var w2 := StepAsWritten(w1, ops[1]);
    var w3 := StepAsWritten(w2, ops[2]);
    var w4 := StepAsWritten(w3, ops[3]);
    AsWrittenFirstHalf(key);
    var w5 := StepAsWritten(w4, ops[4]);
    var w6 := StepAsWritten(w5, ops[5]);
    var w7 := StepAsWritten(w6, ops[6]);
    var w8 := StepAsWritten(w7, ops[7]);
    AsWrittenSecondHalf(key, w4);
    assert RunAsWritten(w0, ops) == RunAsWritten(w1, ops[1..]) == RunAsWritten(w2, ops[2..])
      == RunAsWritten(w3, ops[3..]) == RunAsWritten(w4, ops[4..]) == RunAsWritten(w5, ops[5..])
      == RunAsWritten(w6, ops[6..]) == RunAsWritten(w7, ops[7..]) == w8;
  }

  /** The first four steps as written leave manager 0 holding connection
      0, which is also cached under the key. */
  lemma AsWrittenFirstHalf(key: CacheKey)
    ensures var w1 := StepAsWritten(Start(), Construct(key));
      var w2 := StepAsWritten(w1, Obtain(0, {}));
      var w4 := StepAsWritten(StepAsWritten(w2, CloseManager(0, {})), Construct(key));
      && w4.managers == [Manager(key, Some(0)), Manager(key, None)]
      && w4.st.cache == map[key := 0] && w4.st.conns == map[0 := ConnState(false, false)]
  {
    var w2 := StepAsWritten(StepAsWritten(Start(), Construct(key)), Obtain(0, {}));
    assert w2.managers == [Manager(key, Some(0))];
    assert w2.st.conns == map[0 := ConnState(false, false)];
  }

  /** Manager `m`, holding nothing, obtains the idle usable connection 0
      cached under its key: it holds 0 afterwards and the cache is empty. */
  lemma ObtainCached(w: World, m: nat, key: CacheKey)
    requires WellFormed(w) && m < |w.managers| && w.managers[m] == Manager(key, None)
    requires w.st.cache == map[key := 0] && w.st.conns == map[0 := ConnState(false, false)]
    ensures var w' := Connect(w, m, {});
      && w'.managers == w.managers[m := Manager(key, Some(0))]
      && w'.st.cache == map[] && w'.st.conns == w.st.conns && w'.next == w.next
  {
    var t := GetConnection(w.st, key, {});
    assert !Raises(0, ValidationScript(ConnState(false, false)), {});
    assert t.outcome == Normal(Some(0));
    assert t.after.conns == w.st.conns by {
      assert t.after.conns.Keys == w.st.conns.Keys;
    }
  }

  /** The finalizer's close as written: manager 0 still names connection
      0, whose slot is free again, so 0 is cached under the key once more. */
  lemma SecondCloseRecycles(w: World, key: CacheKey)
    requires WellFormed(w) && |w.managers| == 2
    requires w.managers[0] == Manager(key, Some(0)) && w.st.cache == map[]
    ensures var w' := CloseAsWritten(w, 0, {});
      && w'.managers == w.managers
      && w'.st.cache == map[key := 0] && w'.st.conns == w.st.conns
  {
    assert CacheKey(key.connectString, key.username) == key;
  }

  lemma AsWrittenSecondHalf(key: CacheKey, w4: World)
    requires WellFormed(w4)
    requires w4.managers == [Manager(key, Some(0)), Manager(key, None)]
    requires w4.st.cache == map[key := 0] && w4.st.conns == map[0 := ConnState(false, false)]
    ensures var w5 := StepAsWritten(w4, Obtain(1, {}));
      var w7 := StepAsWritten(StepAsWritten(w5, CloseManager(0, {})), Construct(key));
      var w8 := StepAsWritten(w7, Obtain(2, {}));
      |w8.managers| == 3 && w8.managers[1].conn == Some(0) && w8.managers[2].conn == Some(0)
  {
    var w5 := StepAsWritten(w4, Obtain(1, {}));
    var w6 := StepAsWritten(w5, CloseManager(0, {}));
    var w7 := StepAsWritten(w6, Construct(key));
    ObtainCached(w4, 1, key);
    assert w5.managers == [Manager(key, Some(0)), Manager(key, Some(0))];
    SecondCloseRecycles(w5, key);
    assert w7 == Create(w6, key);
    assert w7.managers == w5.managers + [Manager(key, None)];
    ObtainCached(w7, 2, key);
  }

  /** With the corrected close, manager 0's second close gives nothing
      back, and manager 2 is handed a fresh connection. */
  lemma FinalizeAfterCloseCorrected(key: CacheKey)
    ensures var w := Run(Start(), FinalizeAfterClose(key));
      |w.managers| == 3 && w.managers[1].conn == Some(0) && w.managers[2].conn == Some(1)
  {
    var ops := FinalizeAfterClose(key);
    var w0 := Start();
    var w1 := Step(w0, ops[0]);
    var w2 := Step(w1, ops[1]);
    var w3 := Step(w2, ops[2]);
    var w4 := Step(w3, ops[3]);
    CorrectedFirstHalf(key);
    var w5 := Step(w4, ops[4]);
    var w6 := Step(w5, ops[5]);
    var w7 := Step(w6, ops[6]);
    var w8 := Step(w7, ops[7]);
    CorrectedSecondHalf(key, w4);
    assert Run(w0, ops) == Run(w1, ops[1..]) == Run(w2, ops[2..]) == Run(w3, ops[3..])
      == Run(w4, ops[4..]) == Run(w5, ops[5..]) == Run(w6, ops[6..]) == Run(w7, ops[7..]) == w8;
  }

  /** The first four steps with the corrected close leave connection 0
      cached and held by no manager. */
  lemma CorrectedFirstHalf(key: CacheKey)
    ensures var w1 := Step(Start(), Construct(key));
      var w2 := Step(w1, Obtain(0, {}));
      var w4 := Step(Step(w2, CloseManager(0, {})), Construct(key));
      && w4.managers == [Manager(key, None), Manager(key, None)] && w4.next == 1
      && w4.st.cache == map[key := 0] && w4.st.conns == map[0 := ConnState(false, false)]
  {
    var w2 := Step(Step(Start(), Construct(key)), Obtain(0, {}));
    assert w2.managers == [Manager(key, Some(0))];
    assert w2.st.conns == map[0 := ConnState(false, false)];
    assert Step(w2, CloseManager(0, {})).st.cache == map[key := 0];
  }

  lemma CorrectedSecondHalf(key: CacheKey, w4: World)
    requires Inv(w4)
    requires w4.managers == [Manager(key, None), Manager(key, None)] && w4.next == 1
    requires w4.st.cache == map[key := 0] && w4.st.conns == map[0 := ConnState(false, false)]
    ensures var w5 := Step(w4, Obtain(1, {}));
      var w7 := Step(Step(w5, CloseManager(0, {})), Construct(key));
      var w8 := Step(w7, Obtain(2, {}));
      |w8.managers| == 3 && w8.managers[1].conn == Some(0) && w8.managers[2].conn == Some(1)
  {
    var w5 := Step(w4, Obtain(1, {}));
    var w6 := Step(w5, CloseManager(0, {}));
    var w7 := Step(w6, Construct(key));
    ObtainCached(w4, 1, key);
    assert w5 == Connect(w4, 1, {});
    assert w5.managers == [Manager(key, None), Manager(key, Some(0))];
    assert w6 == CloseCorrected(w5, 0, {});
    assert w5.managers[0 := Manager(key, None)] == w5.managers;
    assert w6.managers == w5.managers && w6.st.cache == map[] && w6.next == 1;
    assert w7 == Create(w6, key);
    assert w7.managers[2] == Manager(key, None) && key !in w7.st.cache;
  }
}

=== FILE: conn_cache.dfy ===
/** OracleManager.ConnCache: at most one idle connection per cache key, handed
    out by getConnection after a health check and stored back by recycle.
    Every public method of the class is synchronized, so each call is one
    atomic transition of State. */
module ConnCache {
  import opened Wrappers
  import opened CacheKeys
  import opened Jdbc

  /** The cache's map, the flags of every connection in existence, and the
      trace of the Connection calls made so far. */
  datatype State = State(
    cache: map<CacheKey, ConnId>,
    conns: map<ConnId, ConnState>,
    trace: seq<Invocation>)

  datatype Transition<+T> = Transition(outcome: Outcome<T>, after: State)

  /** Every cached connection is a connection that exists. */
  predicate Valid(s: State)
  {
    s.cache.Values <= s.conns.Keys
  }

  /** The static CACHE as the constructor leaves it: an empty map. */
  function NewCache(conns: map<ConnId, ConnState>): (s: State)
    ensures Valid(s) && |s.cache| == 0
  {
    State(map[], conns, [])
  }

  /** `s'` differs from `s` at most in connection `c`: no other connection's
      flags change and every new trace entry is a call on `c`. */
  predicate OnlyTouches(s: State, s': State, c: ConnId)
  {
    && s'.conns.Keys == s.conns.Keys
    && (forall id :: id in s.conns && id != c ==> s'.conns[id] == s.conns[id])
    && s.trace <= s'.trace
    && forall i :: |s.trace| <= i < |s'.trace| ==> s'.trace[i].conn == c
  }

  datatype Invoked = Invoked(raised: bool, after: State)

  /** One call on connection `c`: recorded in the trace whether or not it
      raises; a call that returns normally takes its effect on the flags. */
  function Invoke(s: State, c: ConnId, call: Call, faults: set<Invocation>): (r: Invoked)
    requires c in s.conns
    ensures r.raised <==> Invocation(c, call) in faults
    ensures r.after.cache == s.cache
    ensures r.after.trace == s.trace + [Invocation(c, call)]
    ensures r.after.conns == if r.raised then s.conns else s.conns[c := AfterCall(s.conns[c], call)]
  {
    var s' := s.(trace := s.trace + [Invocation(c, call)]);
    if Invocation(c, call) in faults then Invoked(true, s')
    else Invoked(false, s'.(conns := s.conns[c := AfterCall(s.conns[c], call)]))
  }

  /** The calls lines 124-130 of getConnection make: isClosed, then rollback
      and clearWarnings only on a connection that is still open. */
  function ResetScript(closed: bool): seq<Call>
  {
    [IsClosed] + (if closed then [] else [Rollback, ClearWarnings])
  }

  /** The calls getConnection makes on a cached connection with these flags
      when none of them raises: isReadOnly, close if read-only, then the
      reset script of a connection that is closed if it was closed or has
      just been closed. */
  function ValidationScript(st: ConnState): seq<Call>
  {
    [IsReadOnly] + AnsweredScript(st)
  }

  /** The calls after isReadOnly has answered. */
  function AnsweredScript(st: ConnState): seq<Call>
  {
    (if st.readOnly then [Close] else []) + ResetScript(st.closed || st.readOnly)
  }

  /** ConnCache.getConnection for `key`. The entry is removed before any
      Connection method is called, so whatever the outcome the key is no
      longer cached and no other key changes. On a miss nothing happens and
      the answer is null. On a hit the cached connection runs its validation
      script until a call raises: a usable connection comes back reset, a
      read-only one is closed and null is answered, a closed one is answered
      null without being reset. */
  function GetConnection(s: State, key: CacheKey, faults: set<Invocation>)
    : (t: Transition<Option<ConnId>>)
    requires Valid(s)
    ensures Valid(t.after)
    ensures t.after.cache == s.cache - {key}
    ensures key !in s.cache ==> t == Transition(Normal(None), s)
    ensures key in s.cache ==>
      var c := s.cache[key];
      var calls := Issued(c, ValidationScript(s.conns[c]), faults);
      && OnlyTouches(s, t.after, c)
      && t.after.trace == s.trace + On(c, calls)
      && (t.outcome.Raised? <==> Raises(c, ValidationScript(s.conns[c]), faults))
      && (t.outcome.Raised? ==> t.outcome.cause == Invocation(c, calls[|calls| - 1]))
      && (t.outcome.Normal? ==> t.outcome.value == if Usable(s.conns[c]) then Some(c) else None)
      && t.after.conns[c].readOnly == s.conns[c].readOnly
      && t.after.conns[c].closed ==
           (s.conns[c].closed || (Close in calls && Invocation(c, Close) !in faults))
  {
    if key !in s.cache then Transition(Normal(None), s)
    else
      var c := s.cache[key];
      var t := Validate(s.(cache := s.cache - {key}), c, faults);
      CloseIssued(c, s.conns[c], faults);
      t
  }

  /** Of the validation calls, close is made exactly on a read-only
      connection whose isReadOnly did not raise. */
  lemma CloseIssued(c: ConnId, st: ConnState, faults: set<Invocation>)
    ensures Close in Issued(c, ValidationScript(st), faults) <==>
      st.readOnly && Invocation(c, IsReadOnly) !in faults
  {
    var rest := AnsweredScript(st);
    IssuedCons(c, IsReadOnly, rest, faults);
    if st.readOnly {
      assert rest == [Close] + ResetScript(true);
      IssuedCons(c, Close, ResetScript(true), faults);
    } else {
      assert Close !in rest;
    }
  }

  /** `t` is what running `script` on `c` from `s` produces: the map is left
      alone, the trace grows by the calls issued, and the outcome raises
      exactly when a call of the script does, by the last call issued. */
  predicate Runs(s: State, t: Transition<Option<ConnId>>, c: ConnId, script: seq<Call>,
                 faults: set<Invocation>)
  {
    var calls := Issued(c, script, faults);
    && t.after.cache == s.cache
    && t.after.trace == s.trace + On(c, calls)
    && (t.outcome.Raised? <==> Raises(c, script, faults))
    && (t.outcome.Raised? ==> |calls| > 0 && t.outcome.cause == Invocation(c, calls[|calls| - 1]))
  }

  lemma RunsFirstRaises(s: State, c: ConnId, x: Call, rest: seq<Call>, faults: set<Invocation>,
                        t: Transition<Option<ConnId>>)
    requires c in s.conns && Invocation(c, x) in faults
    requires t == Transition(Raised(Invocation(c, x)), Invoke(s, c, x, faults).after)
    ensures Runs(s, t, c, [x] + rest, faults)
  {
    assert ([x] + rest)[0] == x;
    assert On(c, [x]) == [Invocation(c, x)];
  }

  lemma RunsPrepend(s: State, c: ConnId, x: Call, rest: seq<Call>, faults: set<Invocation>,
                    t: Transition<Option<ConnId>>)
    requires c in s.conns && Invocation(c, x) !in faults
    requires Runs(Invoke(s, c, x, faults).after, t, c, rest, faults)
    ensures Runs(s, t, c, [x] + rest, faults)
  {
    var s1 := Invoke(s, c, x, faults).after;
    var calls := Issued(c, rest, faults);
    IssuedCons(c, x, rest, faults);
    assert Issued(c, [x] + rest, faults) == [x] + calls;
    RaisesCons(c, x, rest, faults);
    assert Raises(c, [x] + rest, faults) == Raises(c, rest, faults);
    OnAppend(c, [x], calls);
    assert On(c, [x]) == [Invocation(c, x)];
    assert s1.trace == s.trace + [Invocation(c, x)];
    assert t.after.trace == s1.trace + On(c, calls);
    AppendAssoc(s.trace, [Invocation(c, x)], On(c, calls));
    assert t.after.trace == s.trace + On(c, [x] + calls);
    if t.outcome.Raised? {
      assert ([x] + calls)[|[x] + calls| - 1] == calls[|calls| - 1];
    }
  }

  /** Lines 119-135 of getConnection on the removed connection `c`: it runs
      its validation script until a call raises; a usable connection is
      handed out, any other answers null. */
  function Validate(s: State, c: ConnId, faults: set<Invocation>): (t: Transition<Option<ConnId>>)
    requires c in s.conns
    ensures Runs(s, t, c, ValidationScript(s.conns[c]), faults)
    ensures t.outcome.Normal? ==> t.outcome.value == if Usable(s.conns[c]) then Some(c) else None
    ensures t.after.conns ==
      if && s.conns[c].readOnly
         && Invocation(c, IsReadOnly) !in faults
         && Invocation(c, Close) !in faults
      then s.conns[c := s.conns[c].(closed := true)]
      else s.conns
  {
    var q := Invoke(s, c, IsReadOnly, faults);
    assert q.after.conns == s.conns;
    if q.raised then
      var t := Transition(Raised(Invocation(c, IsReadOnly)), q.after);
      RunsFirstRaises(s, c, IsReadOnly, AnsweredScript(s.conns[c]), faults, t);
      t
    else
      var t := Answered(q.after, c, faults);
      RunsPrepend(s, c, IsReadOnly, AnsweredScript(s.conns[c]), faults, t);
      t
  }

  /** Lines 121-135, once isReadOnly has answered: a read-only connection
      is closed and then answered null; any other is reset if open. */
  function Answered(s: State, c: ConnId, faults: set<Invocation>): (t: Transition<Option<ConnId>>)
    requires c in s.conns
    ensures Runs(s, t, c, AnsweredScript(s.conns[c]), faults)
    ensures t.outcome.Normal? ==> t.outcome.value == if Usable(s.conns[c]) then Some(c) else None
    ensures t.after.conns ==
      if s.conns[c].readOnly && Invocation(c, Close) !in faults
      then s.conns[c := s.conns[c].(closed := true)]
      else s.conns
  {
    var st := s.conns[c];
    if st.readOnly then
      assert AnsweredScript(st) == [Close] + ResetScript(true);
      CloseAndReset(s, c, faults)
    else
      assert AnsweredScript(st) == ResetScript(st.closed);
      ResetIfOpen(s, c, faults)
  }

  /** Lines 121-127 of getConnection on a read-only connection: it is
      closed, and then, being closed, answered null by the reset. A close
      that raises leaves its flags as they were. */
  function CloseAndReset(s: State, c: ConnId, faults: set<Invocation>)
    : (t: Transition<Option<ConnId>>)
    requires c in s.conns
    ensures Runs(s, t, c, [Close] + ResetScript(true), faults)
    ensures t.outcome.Normal? ==> t.outcome.value.None?
    ensures t.after.conns ==
      if Invocation(c, Close) in faults then s.conns
      else s.conns[c := s.conns[c].(closed := true)]
  {
    var cl := Invoke(s, c, Close, faults);
    if cl.raised then
      var t := Transition(Raised(Invocation(c, Close)), cl.after);
      RunsFirstRaises(s, c, Close, ResetScript(true), faults, t);
      t
    else
      var t := ResetIfOpen(cl.after, c, faults);
      RunsPrepend(s, c, Close, ResetScript(true), faults, t);
      t
  }

  /** Lines 124-135 of getConnection: a closed connection is answered null;
      an open one is rolled back, its warnings cleared, and handed out. No
      call here changes a flag. */
  function ResetIfOpen(s: State, c: ConnId, faults: set<Invocation>)
    : (t: Transition<Option<ConnId>>)
    requires c in s.conns
    ensures Runs(s, t, c, ResetScript(s.conns[c].closed), faults)
    ensures t.after.conns == s.conns
    ensures t.outcome.Normal? ==> t.outcome.value == if s.conns[c].closed then None else Some(c)
  {
    var closed := s.conns[c].closed;
    var q := Invoke(s, c, IsClosed, faults);
    if q.raised then
      var t := Transition(Raised(Invocation(c, IsClosed)), q.after);
      RunsFirstRaises(s, c, IsClosed, if closed then [] else [Rollback, ClearWarnings], faults, t);
      t
    else if closed then
      var t := Transition(Normal(None), q.after);
      assert Issued(c, [], faults) == [] && !Raises(c, [], faults);
      RunsPrepend(s, c, IsClosed, [], faults, t);
      t
    else
      var t := RollbackAndHandOut(q.after, c, faults);
      RunsPrepend(s, c, IsClosed, [Rollback, ClearWarnings], faults, t);
      t
  }

  /** Lines 129-135: rollback, clearWarnings, then the connection is handed out. */
  function RollbackAndHandOut(s: State, c: ConnId, faults: set<Invocation>)
    : (t: Transition<Option<ConnId>>)
    requires c in s.conns
    ensures Runs(s, t, c, [Rollback, ClearWarnings], faults)
    ensures t.after.conns == s.conns
    ensures t.outcome.Normal? ==> t.outcome.value == Some(c)
  {
    var rb := Invoke(s, c, Rollback, faults);
    assert [Rollback, ClearWarnings] == [Rollback] + [ClearWarnings];
    if rb.raised then
      var t := Transition(Raised(Invocation(c, Rollback)), rb.after);
      RunsFirstRaises(s, c, Rollback, [ClearWarnings], faults, t);
      t
    else
      var t := ClearAndHandOut(rb.after, c, faults);
      RunsPrepend(s, c, Rollback, [ClearWarnings], faults, t);
      t
  }

  /** Lines 130-135: clearWarnings, then the connection is handed out. */
  function ClearAndHandOut(s: State, c: ConnId, faults: set<Invocation>)
    : (t: Transition<Option<ConnId>>)
    requires c in s.conns
    ensures Runs(s, t, c, [ClearWarnings], faults)
    ensures t.after.conns == s.conns
    ensures t.outcome.Normal? ==> t.outcome.value == Some(c)
  {
    var cw := Invoke(s, c, ClearWarnings, faults);
    assert Issued(c, [], faults) == [] && !Raises(c, [], faults);
    assert [ClearWarnings] == [ClearWarnings] + [];
    if cw.raised then
      var t := Transition(Raised(Invocation(c, ClearWarnings)), cw.after);
      RunsFirstRaises(s, c, ClearWarnings, [], faults, t);
      t
    else
      var t := Transition(Normal(Some(c)), cw.after);
      RunsPrepend(s, c, ClearWarnings, [], faults, t);
      t
  }

  /** ConnCache.recycle: a connection released under an occupied key is
      closed and the map is left as it was (the first releaser keeps the
      slot); under a free key it is stored and no other entry changes. A
      close that raises propagates to the caller. */
  function Recycle(s: State, key: CacheKey, conn: ConnId, faults: set<Invocation>)
    : (t: Transition<()>)
    requires Valid(s) && conn in s.conns
    ensures Valid(t.after)
    ensures key in t.after.cache
    ensures forall k :: k != key ==> (k in t.after.cache <==> k in s.cache)
    ensures forall k :: k in s.cache ==> k in t.after.cache && t.after.cache[k] == s.cache[k]
    ensures key in s.cache ==>
      && t.after.trace == s.trace + [Invocation(conn, Close)]
      && OnlyTouches(s, t.after, conn)
      && (t.outcome.Raised? <==> Invocation(conn, Close) in faults)
      && (t.outcome.Normal? ==> t.after.conns[conn].closed)
      && t.after.conns ==
           if t.outcome.Raised? then s.conns
           else s.conns[conn := s.conns[conn].(closed := true)]
    ensures key !in s.cache ==>
      && t.after.cache[key] == conn
      && t.outcome.Normal?
      && t.after.conns == s.conns && t.after.trace == s.trace
  {
    if key in s.cache then
      var cl := Invoke(s, conn, Close, faults);
      Transition(if cl.raised then Raised(Invocation(conn, Close)) else Normal(()), cl.after)
    else
      Transition(Normal(()), s.(cache := s.cache[key := conn]))
  }

  /** OracleManager.close: a manager holding an open connection releases it
      back to the cache under its connect string and username, where it is
      stored if the slot is free and closed (any exception propagating) if
      the slot is taken; one holding none changes nothing. Releasing the
      manager's statements happens in the superclass and is not part of
      this model. */
  function ManagerClose(s: State, connectString: string, username: Option<string>,
                        held: Option<ConnId>, faults: set<Invocation>): (t: Transition<()>)
    requires Valid(s)
    requires held.Some? ==> held.value in s.conns
    ensures Valid(t.after)
    ensures held.None? ==> t == Transition(Normal(()), s)
    ensures held.Some? && CacheKey(connectString, username) !in s.cache ==>
      && t.after.cache == s.cache[CacheKey(connectString, username) := held.value]
      && t == Transition(Normal(()), t.after)
      && t.after.conns == s.conns && t.after.trace == s.trace
    ensures held.Some? && CacheKey(connectString, username) in s.cache ==>
      && t.after.cache == s.cache
      && t.after.trace == s.trace + [Invocation(held.value, Close)]
      && OnlyTouches(s, t.after, held.value)
      && (t.outcome.Raised? <==> Invocation(held.value, Close) in faults)
      && t.after.conns ==
           if t.outcome.Raised? then s.conns
           else s.conns[held.value := s.conns[held.value].(closed := true)]
  {
    match held
    case None => Transition(Normal(()), s)
    case Some(c) => Recycle(s, CacheKey(connectString, username), c, faults)
  }

  /** One close() per entry of `order`, on the connection cached under it. */
  function Closes(cache: map<CacheKey, ConnId>, order: seq<CacheKey>): (r: seq<Invocation>)
    requires forall i :: 0 <= i < |order| ==> order[i] in cache
    ensures |r| == |order|
  {
    seq(|order|, i requires 0 <= i < |order| => Invocation(cache[order[i]], Close))
  }

  /** ConnCache.finalize: close() on every cached connection, visiting the
      entries in `order` (HashMap's iteration order, which the source leaves
      unspecified). The first close that raises ends the loop. The map itself
      is not cleared. */
  function Finalize(s: State, order: seq<CacheKey>, faults: set<Invocation>): (t: Transition<()>)
    requires Valid(s)
    requires forall i :: 0 <= i < |order| ==> order[i] in s.cache
    ensures t.after.cache == s.cache
    ensures t.after.conns.Keys == s.conns.Keys
    ensures t.after.trace == s.trace + Attempted(Closes(s.cache, order), faults)
    ensures t.outcome.Raised? <==> AnyRaises(Closes(s.cache, order), faults)
    ensures t.outcome.Raised? ==> t.outcome.cause == t.after.trace[|t.after.trace| - 1]
    decreases |order|
  {
    if |order| == 0 then Transition(Normal(()), s)
    else
      var c := s.cache[order[0]];
      var cl := Invoke(s, c, Close, faults);
      ClosesCons(s.cache, order, faults);
      if cl.raised then
        Transition(Raised(Invocation(c, Close)), cl.after)
      else
        var t := Finalize(cl.after, order[1..], faults);
        var rest := Attempted(Closes(s.cache, order[1..]), faults);
        AppendAssoc(s.trace, [Invocation(c, Close)], rest);
        t
  }

  lemma AppendAssoc<T>(a: seq<T>, b: seq<T>, c: seq<T>)
    ensures a + (b + c) == (a + b) + c
  {
  }

  /** Unfolding the close loop by one entry. */
  lemma ClosesCons(cache: map<CacheKey, ConnId>, order: seq<CacheKey>, faults: set<Invocation>)
    requires |order| > 0 && forall i :: 0 <= i < |order| ==> order[i] in cache
    ensures
      var head := Invocation(cache[order[0]], Close);
      var closes := Closes(cache, order);
      && closes == [head] + Closes(cache, order[1..])
      && (AnyRaises(closes, faults) <==> head in faults || AnyRaises(closes[1..], faults))
      && Attempted(closes, faults) ==
           if head in faults then [head] else [head] + Attempted(closes[1..], faults)
  {
    var head := Invocation(cache[order[0]], Close);
    var closes := Closes(cache, order);
    assert closes[0] == head;
    assert closes[1..] == Closes(cache, order[1..]);
    assert closes == [head] + closes[1..];
    if AnyRaises(closes, faults) && head !in faults {
      var i :| 0 <= i < |closes| && closes[i] in faults;
      assert closes[1..][i - 1] in faults;
    }
    if AnyRaises(closes[1..], faults) {
      var i :| 0 <= i < |closes[1..]| && closes[1..][i] in faults;
      assert closes[i + 1] in faults;
    }
    assert AnyRaises(closes, faults) <==> head in faults || AnyRaises(closes[1..], faults);
    assert Attempted(closes, faults) ==
      if head in faults then [head] else [head] + Attempted(closes[1..], faults);
  }
}

=== FILE: jdbc.dfy ===
/** The part of java.sql.Connection the connection cache relies on, as
    abstract records: a connection is an identity with two flags, and every
    call the cache makes on one is an invocation that may raise SQLException. */
module Jdbc {

  /** The identity of a java.sql.Connection object. */
  type ConnId = nat

  /** What isClosed() and isReadOnly() would answer. */
  datatype ConnState = ConnState(closed: bool, readOnly: bool)

  /** The Connection methods the cache calls. */
  datatype Call = IsReadOnly | Close | IsClosed | Rollback | ClearWarnings

  datatype Invocation = Invocation(conn: ConnId, call: Call)

  /** How a call of the cache ends: normally with a value, or with the
      SQLException the given invocation raised. */
  datatype Outcome<+T> = Normal(value: T) | Raised(cause: Invocation)

  /** A connection the cache may hand out: open and writable. */
  predicate Usable(st: ConnState)
  {
    !st.closed && !st.readOnly
  }

  /** The flags after a call that returned normally: close() closes the
      connection (a second close is a no-op), nothing else changes a flag. */
  function AfterCall(st: ConnState, call: Call): ConnState
  {
    if call == Close then st.(closed := true) else st
  }

  /** The invocations of `calls`, in order, all on connection `c`. */
  function On(c: ConnId, calls: seq<Call>): (r: seq<Invocation>)
    ensures |r| == |calls|
  {
    seq(|calls|, i requires 0 <= i < |calls| => Invocation(c, calls[i]))
  }

  /** Some call of `script` raises when invoked on `c`. */
  predicate Raises(c: ConnId, script: seq<Call>, faults: set<Invocation>)
  {
    exists i :: 0 <= i < |script| && Invocation(c, script[i]) in faults
  }

  /** The calls actually made when `script` is run on `c` and a raising call
      ends the run: the script up to and including its first raising call. */
  function Issued(c: ConnId, script: seq<Call>, faults: set<Invocation>): (r: seq<Call>)
    ensures r <= script
    ensures !Raises(c, script, faults) ==> r == script
    ensures Raises(c, script, faults) ==> |r| > 0 && Invocation(c, r[|r| - 1]) in faults
    ensures forall i :: 0 <= i < |r| - 1 ==> Invocation(c, r[i]) !in faults
    decreases |script|
  {
    if |script| == 0 then []
    else if Invocation(c, script[0]) in faults then [script[0]]
    else [script[0]] + Issued(c, script[1..], faults)
  }

  /** Some invocation of `invs` raises. */
  predicate AnyRaises(invs: seq<Invocation>, faults: set<Invocation>)
  {
    exists i :: 0 <= i < |invs| && invs[i] in faults
  }

  /** The invocations actually made when `invs` are made in order and a
      raising one ends the run: up to and including the first raising one. */
  function Attempted(invs: seq<Invocation>, faults: set<Invocation>): (r: seq<Invocation>)
    ensures r <= invs
    ensures !AnyRaises(invs, faults) ==> r == invs
    ensures AnyRaises(invs, faults) ==> |r| > 0 && r[|r| - 1] in faults
    ensures forall i :: 0 <= i < |r| - 1 ==> r[i] !in faults
    decreases |invs|
  {
    if |invs| == 0 then []
    else if invs[0] in faults then [invs[0]]
    else [invs[0]] + Attempted(invs[1..], faults)
  }

  lemma OnAppend(c: ConnId, a: seq<Call>, b: seq<Call>)
    ensures On(c, a + b) == On(c, a) + On(c, b)
  {
  }

  lemma RaisesAppend(c: ConnId, a: seq<Call>, b: seq<Call>, faults: set<Invocation>)
    ensures Raises(c, a + b, faults) <==> Raises(c, a, faults) || Raises(c, b, faults)
  {
    if Raises(c, a + b, faults) {
      var i :| 0 <= i < |a + b| && Invocation(c, (a + b)[i]) in faults;
      if i < |a| {
        assert Invocation(c, a[i]) in faults;
      } else {
        assert Invocation(c, b[i - |a|]) in faults;
      }
    }
    if Raises(c, b, faults) {
      var i :| 0 <= i < |b| && Invocation(c, b[i]) in faults;
      assert Invocation(c, (a + b)[|a| + i]) in faults;
    }
    if Raises(c, a, faults) {
      var i :| 0 <= i < |a| && Invocation(c, a[i]) in faults;
      assert Invocation(c, (a + b)[i]) in faults;
    }
  }

  /** Unfolding a script run by its first call. */
  lemma IssuedCons(c: ConnId, x: Call, rest: seq<Call>, faults: set<Invocation>)
    ensures Issued(c, [x] + rest, faults) ==
      if Invocation(c, x) in faults then [x] else [x] + Issued(c, rest, faults)
  {
    assert ([x] + rest)[0] == x;
    assert ([x] + rest)[1..] == rest;
  }

  lemma RaisesCons(c: ConnId, x: Call, rest: seq<Call>, faults: set<Invocation>)
    ensures Raises(c, [x] + rest, faults) <==> Invocation(c, x) in faults || Raises(c, rest, faults)
  {
    RaisesAppend(c, [x], rest, faults);
    if Raises(c, [x], faults) {
      var i :| 0 <= i < 1 && Invocation(c, [x][i]) in faults;
    }
    assert Invocation(c, x) in faults ==> Invocation(c, [x][0]) in faults;
  }

  /** Running two scripts one after the other: the second starts only if no
      call of the first raised. */
  lemma {:induction false} IssuedAppend(c: ConnId, a: seq<Call>, b: seq<Call>,
                                       faults: set<Invocation>)
    ensures Issued(c, a + b, faults) ==
      if Raises(c, a, faults) then Issued(c, a, faults) else a + Issued(c, b, faults)
    decreases |a|
  {
    if |a| == 0 {
      assert a + b == b;
    } else {
      var x, tail := a[0], a[1..];
      assert a == [x] + tail;
      assert a + b == [x] + (tail + b);
      IssuedAppend(c, tail, b, faults);
      IssuedCons(c, x, tail + b, faults);
      IssuedCons(c, x, tail, faults);
      RaisesCons(c, x, tail, faults);
      if Invocation(c, x) !in faults && !Raises(c, tail, faults) {
        assert [x] + (tail + Issued(c, b, faults)) == a + Issued(c, b, faults);
      }
    }
  }
}

=== FILE: properties.dfy ===
/** Properties of the connection cache that relate several calls, or that
    follow from one call's contract for a particular kind of connection. */
module CacheProperties {
  import opened Wrappers
  import opened CacheKeys
  import opened Jdbc
  import opened ConnCache

  /** finalize leaves every connection it visited closed when no close
      raised, keeps every closed connection closed, and changes no
      connection it did not visit. */
  lemma {:induction false} FinalizeClosesVisited(s: State, order: seq<CacheKey>,
                                                 faults: set<Invocation>)
    requires Valid(s)
    requires forall i :: 0 <= i < |order| ==> order[i] in s.cache
    ensures var t := Finalize(s, order, faults);
      && (t.outcome.Normal? ==>
            forall i :: 0 <= i < |order| ==> t.after.conns[s.cache[order[i]]].closed)
      && (forall id :: id in s.conns && s.conns[id].closed ==> t.after.conns[id].closed)
      && forall id ::
           id in s.conns && (forall i :: 0 <= i < |order| ==> s.cache[order[i]] != id) ==>
             t.after.conns[id] == s.conns[id]
    decreases |order|
  {
    if |order| > 0 {
      var c := s.cache[order[0]];
      var cl := Invoke(s, c, Close, faults);
      if !cl.raised {
        FinalizeClosesVisited(cl.after, order[1..], faults);
        var t := Finalize(s, order, faults);
        assert t == Finalize(cl.after, order[1..], faults);
        forall i | 0 <= i < |order| && t.outcome.Normal?
          ensures t.after.conns[s.cache[order[i]]].closed
        {
          if i > 0 {
            assert order[i] == order[1..][i - 1];
          }
        }
        forall id | id in s.conns && (forall i :: 0 <= i < |order| ==> s.cache[order[i]] != id)
          ensures t.after.conns[id] == s.conns[id]
        {
          forall i | 0 <= i < |order[1..]|
            ensures cl.after.cache[order[1..][i]] != id
          {
            assert order[1..][i] == order[i + 1];
          }
        }
      }
    }
  }

  /** The flags finalize leaves, whether or not a close raised: a connection
      ends closed exactly when one of its closes was made and returned
      normally; its read-only flag, and every flag of a connection no close
      reached, are as they were. */
  lemma {:induction false} FinalizeFlags(s: State, order: seq<CacheKey>, faults: set<Invocation>)
    requires Valid(s)
    requires forall i :: 0 <= i < |order| ==> order[i] in s.cache
    ensures var t := Finalize(s, order, faults);
      var made := Attempted(Closes(s.cache, order), faults);
      forall id :: id in s.conns ==>
        t.after.conns[id] ==
          if Invocation(id, Close) in made && Invocation(id, Close) !in faults
          then s.conns[id].(closed := true)
          else s.conns[id]
    decreases |order|
  {
    if |order| > 0 {
      var c := s.cache[order[0]];
      var cl := Invoke(s, c, Close, faults);
      ClosesCons(s.cache, order, faults);
      if !cl.raised {
        assert cl.after.cache == s.cache;
        FinalizeFlags(cl.after, order[1..], faults);
      }
    }
  }

  /** The calls getConnection makes on a hit are drawn from the validation
      script, so a connection that is not usable is never rolled back nor
      has its warnings cleared, whatever raises, and is never handed out. */
  lemma UnusableIsNeverReset(s: State, key: CacheKey, faults: set<Invocation>)
    requires Valid(s) && key in s.cache && !Usable(s.conns[s.cache[key]])
    ensures var t := GetConnection(s, key, faults);
      && (forall i :: |s.trace| <= i < |t.after.trace| ==>
            t.after.trace[i].call != Rollback && t.after.trace[i].call != ClearWarnings)
      && !(t.outcome.Normal? && t.outcome.value.Some?)
  {
    var c := s.cache[key];
    var script := ValidationScript(s.conns[c]);
    var calls := Issued(c, script, faults);
    var t := GetConnection(s, key, faults);
    forall i | |s.trace| <= i < |t.after.trace|
      ensures t.after.trace[i].call != Rollback && t.after.trace[i].call != ClearWarnings
    {
      var j := i - |s.trace|;
      assert t.after.trace[i] == On(c, calls)[j] == Invocation(c, calls[j]);
      assert calls[j] == script[j];
    }
  }

  /** A cached read-only connection is closed exactly once and null is
      answered, when none of the calls on it raises. */
  lemma ReadOnlyIsClosedOnce(s: State, key: CacheKey, faults: set<Invocation>)
    requires Valid(s) && key in s.cache
    requires var c := s.cache[key];
      && s.conns[c].readOnly
      && Invocation(c, IsReadOnly) !in faults && Invocation(c, Close) !in faults
      && Invocation(c, IsClosed) !in faults
    ensures var c := s.cache[key];
      var t := GetConnection(s, key, faults);
      && t.outcome == Normal(None)
      && t.after.trace ==
           s.trace + [Invocation(c, IsReadOnly), Invocation(c, Close), Invocation(c, IsClosed)]
      && t.after.conns[c].closed
      && key !in t.after.cache
  {
    var c := s.cache[key];
    var script := ValidationScript(s.conns[c]);
    assert script == [IsReadOnly, Close, IsClosed];
    assert !Raises(c, script, faults);
  }

  /** A cached connection that is already closed (and writable) is answered
      null without being closed again, rolled back or cleared, when neither
      query on it raises. */
  lemma ClosedIsAnsweredNull(s: State, key: CacheKey, faults: set<Invocation>)
    requires Valid(s) && key in s.cache
    requires var c := s.cache[key];
      && s.conns[c].closed && !s.conns[c].readOnly
      && Invocation(c, IsReadOnly) !in faults && Invocation(c, IsClosed) !in faults
    ensures var c := s.cache[key];
      var t := GetConnection(s, key, faults);
      && t.outcome == Normal(None)
      && t.after.trace == s.trace + [Invocation(c, IsReadOnly), Invocation(c, IsClosed)]
      && key !in t.after.cache
  {
    var c := s.cache[key];
    var script := ValidationScript(s.conns[c]);
    assert script == [IsReadOnly, IsClosed];
    assert !Raises(c, script, faults);
  }

  /** An open, writable cached connection is rolled back, then its warnings
      are cleared, and that same connection is handed out, when none of the
      calls on it raises. */
  lemma UsableIsResetAndHandedOut(s: State, key: CacheKey, faults: set<Invocation>)
    requires Valid(s) && key in s.cache
    requires var c := s.cache[key];
      && Usable(s.conns[c])
      && forall call :: Invocation(c, call) !in faults
    ensures var c := s.cache[key];
      var t := GetConnection(s, key, faults);
      && t.outcome == Normal(Some(c))
      && t.after.trace == s.trace + On(c, [IsReadOnly, IsClosed, Rollback, ClearWarnings])
      && t.after.conns == s.conns
      && key !in t.after.cache
  {
    var c := s.cache[key];
    var t := GetConnection(s, key, faults);
    assert ValidationScript(s.conns[c]) == [IsReadOnly, IsClosed, Rollback, ClearWarnings];
    assert !Raises(c, ValidationScript(s.conns[c]), faults);
    assert t.after.conns == s.conns by {
      assert t.after.conns.Keys == s.conns.Keys;
      assert t.after.conns[c] == s.conns[c];
    }
  }

  /** Round trip: a usable connection recycled under a free key is what the
      next getConnection for that key hands out, and the map is back to what
      it was before the recycle. */
  lemma RecycleThenGet(s: State, key: CacheKey, conn: ConnId, faults: set<Invocation>)
    requires Valid(s) && conn in s.conns && key !in s.cache
    requires Usable(s.conns[conn]) && forall call :: Invocation(conn, call) !in faults
    ensures var r := Recycle(s, key, conn, faults);
      var g := GetConnection(r.after, key, faults);
      && g.outcome == Normal(Some(conn))
      && g.after.cache == s.cache
      && g.after.conns == s.conns
  {
    var r := Recycle(s, key, conn, faults);
    UsableIsResetAndHandedOut(r.after, key, faults);
    assert r.after.cache - {key} == s.cache;
  }

  /** A connection recycled under one key is invisible to a lookup under any
      other key that was not cached: a different connect string, a different
      username, or a null username against a present one. The lookup answers
      null and the recycled entry stays. */
  lemma OtherKeyMisses(s: State, key: CacheKey, other: CacheKey, conn: ConnId,
                       faults: set<Invocation>)
    requires Valid(s) && conn in s.conns && key !in s.cache
    requires other != key && other !in s.cache
    ensures var r := Recycle(s, key, conn, faults);
      var g := GetConnection(r.after, other, faults);
      && g.outcome == Normal(None)
      && key in g.after.cache && g.after.cache[key] == conn
  {
  }

  /** First releaser wins: of two connections recycled under the same free
      key, the first stays cached and the second is closed once. */
  lemma SecondRecycleIsDiscarded(s: State, key: CacheKey, first: ConnId, second: ConnId,
                                 faults: set<Invocation>)
    requires Valid(s) && first in s.conns && second in s.conns && key !in s.cache
    requires Invocation(second, Close) !in faults
    ensures var r1 := Recycle(s, key, first, faults);
      var r2 := Recycle(r1.after, key, second, faults);
      && r2.outcome.Normal?
      && r2.after.cache == s.cache[key := first]
      && r2.after.trace == s.trace + [Invocation(second, Close)]
      && r2.after.conns[second].closed
  {
    var r1 := Recycle(s, key, first, faults);
    var r2 := Recycle(r1.after, key, second, faults);
    assert r2.after.cache == r1.after.cache;
  }

  /** The number of times `x` occurs in `xs`. */
  function Count<T(==)>(xs: seq<T>, x: T): nat
  {
    if |xs| == 0 then 0 else (if xs[0] == x then 1 else 0) + Count(xs[1..], x)
  }

  lemma {:induction false} CountUnique<T>(xs: seq<T>, x: T, j: nat)
    requires j < |xs| && xs[j] == x
    requires forall i :: 0 <= i < |xs| && i != j ==> xs[i] != x
    ensures Count(xs, x) == 1
  {
    if j == 0 {
      CountAbsent(xs[1..], x);
    } else {
      CountUnique(xs[1..], x, j - 1);
    }
  }

  lemma {:induction false} CountAbsent<T>(xs: seq<T>, x: T)
    requires forall i :: 0 <= i < |xs| ==> xs[i] != x
    ensures Count(xs, x) == 0
  {
    if |xs| > 0 {
      CountAbsent(xs[1..], x);
    }
  }

  /** No connection is cached under two keys. */
  predicate Injective(cache: map<CacheKey, ConnId>)
  {
    forall k1, k2 :: k1 in cache && k2 in cache && k1 != k2 ==> cache[k1] != cache[k2]
  }

  /** `order` visits every key of `cache` exactly once. */
  predicate Enumerates(order: seq<CacheKey>, cache: map<CacheKey, ConnId>)
  {
    && (forall i :: 0 <= i < |order| ==> order[i] in cache)
    && (forall k :: k in cache ==> k in order)
    && forall i, j :: 0 <= i < j < |order| ==> order[i] != order[j]
  }

  /** Over an enumeration of an injective map, the close list names every
      cached connection exactly once. */
  lemma ClosesNameEachOnce(cache: map<CacheKey, ConnId>, order: seq<CacheKey>, v: ConnId)
    requires Injective(cache) && Enumerates(order, cache) && v in cache.Values
    ensures Count(Closes(cache, order), Invocation(v, Close)) == 1
  {
    var closes := Closes(cache, order);
    var k :| k in cache && cache[k] == v;
    var j :| 0 <= j < |order| && order[j] == k;
    forall i | 0 <= i < |closes| && i != j
      ensures closes[i] != Invocation(v, Close)
    {
      assert order[i] != order[j];
    }
    CountUnique(closes, Invocation(v, Close), j);
  }

  /** Teardown: when no close raises, finalize closes every cached
      connection, with exactly one close() call on each, and leaves the map
      as it was. */
  lemma FinalizeClosesEachOnce(s: State, order: seq<CacheKey>, faults: set<Invocation>)
    requires Valid(s) && Injective(s.cache) && Enumerates(order, s.cache)
    requires forall v :: v in s.cache.Values ==> Invocation(v, Close) !in faults
    ensures var t := Finalize(s, order, faults);
      && t.outcome.Normal?
      && t.after.cache == s.cache
      && s.trace <= t.after.trace
      && (forall i :: |s.trace| <= i < |t.after.trace| ==>
            t.after.trace[i].call == Close && t.after.trace[i].conn in s.cache.Values)
      && forall v :: v in s.cache.Values ==>
           t.after.conns[v].closed && Count(t.after.trace[|s.trace|..], Invocation(v, Close)) == 1
  {
    var t := Finalize(s, order, faults);
    var closes := Closes(s.cache, order);
    assert !AnyRaises(closes, faults);
    assert t.after.trace[|s.trace|..] == closes;
    FinalizeClosesVisited(s, order, faults);
    forall v | v in s.cache.Values
      ensures t.after.conns[v].closed && Count(closes, Invocation(v, Close)) == 1
    {
      ClosesNameEachOnce(s.cache, order, v);
      var k :| k in s.cache && s.cache[k] == v;
      var j :| 0 <= j < |order| && order[j] == k;
    }
    forall i | |s.trace| <= i < |t.after.trace|
      ensures t.after.trace[i].call == Close && t.after.trace[i].conn in s.cache.Values
    {
      assert t.after.trace[i] == closes[i - |s.trace|];
    }
  }

  /** The scenario of a cache shared by two users of one database: a
      connection released by alice is not handed to bob, nor to a lookup
      without a username, and is handed back to alice. */
  lemma AliceAndBob()
    ensures
      var db := "db://host:1521";
      var alice := CacheKey(db, Some("alice"));
      var s := NewCache(map[1 := ConnState(false, false)]);
      var r := Recycle(s, alice, 1, {});
      var bob := GetConnection(r.after, CacheKey(db, Some("bob")), {});
      var anonymous := GetConnection(bob.after, CacheKey(db, None), {});
      var again := GetConnection(anonymous.after, alice, {});
      && bob.outcome == Normal(None)
      && anonymous.outcome == Normal(None)
      && again.outcome == Normal(Some(1))
      && |again.after.cache| == 0
  {
    var db := "db://host:1521";
    var alice := CacheKey(db, Some("alice"));
    var s := NewCache(map[1 := ConnState(false, false)]);
    var r := Recycle(s, alice, 1, {});
    assert CacheKey(db, Some("bob")) != alice;
    var bob := GetConnection(r.after, CacheKey(db, Some("bob")), {});
    var anonymous := GetConnection(bob.after, CacheKey(db, None), {});
    RecycleThenGet(s, alice, 1, {});
    assert anonymous.after == r.after;
  }
}

=== FILE: wrappers.dfy ===
/** Option and Result, shared by the model: Option stands for a Java
    reference that may be null, Result for a call that may raise. */
module Wrappers {

  datatype Option<+T> = None | Some(value: T)

  datatype Result<+R, +E> = Success(value: R) | Failure(error: E)
}
